=== FILE: README.md ===
# Set-associative cache emulator, modelled in Dafny

This project models the `Cpu` cache emulator of `src/cpu.rs`. The emulator is a
flat word-addressed RAM behind a set-associative cache. The cache has
`cache_size / block_size` lines, and each line holds `block_size / 8` words.
The emulator also keeps four hit/miss counters and an access clock `time`.

- `load` and `store` are the two public operations.
- Both decode an address into (tag, set index, word offset) with `parts`.
- Both scan the address's set with `get_cache`.
- `load` refills a line from RAM with `set_cache` on a miss, and `store`
  always does. The victim line is chosen by the Random, "LRU" or FIFO
  policy.

Every operation is a pure function from the old `Cpu` state to the new one.
The modules are:

- `Arith` (`arith.dfy`): division facts that the decoder needs.
- `Decoder` (`decoder.dfy`): the geometry, `parts` (here `Decode`), the
  block start and the set range.
- `Replacement` (`replacement.dfy`): cache lines, words, the three victim
  scans and what each one selects.
- `Cpu` (`cpu.dfy`): the state, `new`, `get_cache`, `set_cache`, `load` and
  `store`, with their frames.
- `CpuProperties` (`properties.dfy`): the invariants that `new` establishes
  and every access keeps, where victims land, what a repeated access sees,
  and two concrete runs.

The code checks none of its geometry. The model requires a geometry that
`Decoder.Valid` accepts:

- `block_size >= 8` and `block_size % 8 == 0`;
- `associativity >= 1`;
- `(cache_size / block_size) % associativity == 0`;
- `cache_size / block_size >= associativity`.

A RAM that `new` is given must hold a whole number of blocks
(`ram_size % block_size == 0`). Every address must be `< ram_size`. Under
these preconditions every index the code uses is proved in bounds:

- the set scan range is `SetStart`;
- `data[offset]` is in `GetCache`;
- the RAM slice copied on a fill is `Block` and `BlockInRam`.

Not every one of these conditions is needed to avoid a panic:

- The code panics when `block_size < 8`: `words` is 0, and `address % words`
  divides by zero.
- It panics when `associativity` is 0, or larger than the line count: then
  `parts` divides by zero (src/cpu.rs:69-72).
- It can panic when the RAM does not hold whole blocks, because the copied
  slice can run past the end. It does not always panic: with 64-byte blocks
  and 72 words of RAM, every block starts at word 0 or 64, and each copied
  slice of 8 words is in range.
- It runs on a line count that `associativity` does not divide. The lines
  beyond `n_sets * associativity` are never used (src/cpu.rs:69-70, 82).
- It runs on a block size of 8 or more that is not a multiple of 8. The
  words per block are truncated to `block_size / 8` (src/cpu.rs:65, 97-98).

The model excludes these two geometries, and every RAM that is not a whole
number of blocks, as well.

## Where the code differs from its own design

The model follows the code. In these places the code departs from the
write-through cache that its comments describe:

- **Empty lines have tag `1`.** An address whose tag is 1 hits an empty line
  (`FreshFirstLoadHitsIffTagOne`).
- **The "LRU" branch evicts the most recently used line.** It keeps the line
  with the LARGEST `last_used` (`LruVictimIsMostRecent`). Empty lines have
  `last_used = u64::MAX`, so they are still taken first.
- **Blocks are aligned in bytes, but addresses count words.** A fill copies
  the words starting at `address - address % block_size`. A stored word can
  therefore be missing from the line that is then filled
  (`StoreThenLoadMisaligned`). A load that misses returns `ram[address]`.
  A later load of the same address hits, and returns the word of the
  misaligned line instead (`LoadAgainHits`).
- **`store` refills a line even on a hit.** A 2-way FIFO set can then end up
  with two lines holding the same tag. The older line, with the old word,
  still answers the next `load` (`StoreHitLeavesStaleLine`).

So "a store followed by a load returns the stored value" does not hold as
written, and is not stated.

## Model

| member | source | states |
|---|---|---|
| Decoder.Decode | src/cpu.rs:62-75 | the offset is below the words per block and the set index is below the number of sets |
| Decoder.DecodeRoundTrip | src/cpu.rs:62-75 | `(tag * n_sets + index) * words + offset` gives back the address: the tag computed as `address / n_sets / words` is the block number divided by the number of sets |
| Decoder.DecodeCompose | src/cpu.rs:62-75 | decoding is injective: composing in-range parts and decoding returns those parts, so `parts` is a bijection onto its ranges |
| Decoder.DecodeExamples | src/cpu.rs:62-75 | the fully associative, direct-mapped and 2-way decodings of a 512/64 geometry, e.g. 19 maps to (2,0,3) and 100 to (3,0,4) |
| Decoder.BlockStart | src/cpu.rs:97 | the fill start is at or below the address, a multiple of `block_size`, and `address % block_size` below it |
| Decoder.BlockInRam | src/cpu.rs:97-98 | the copied slice `ram[start .. start + block_size/8]` lies inside a RAM of whole blocks |
| Decoder.SetInRange | src/cpu.rs:82 | a set's line range `[set*assoc, (set+1)*assoc)` lies inside the line vector |
| Cpu.SetStart | src/cpu.rs:80-82 | the scanned range starts at `index * associativity`, for the address's set index, and ends inside the line vector |
| Cpu.FindTag | src/cpu.rs:82-88 | the scan finds a line iff some line of the range holds the tag, and the line it finds is the first one that does |
| Cpu.New | src/cpu.rs:43-60 | zeroed RAM of `ram_size` words, counters and clock at 0, `cache_size/block_size` empty lines of `block_size/8` zero words with tag 1, write time 0 and last use `u64::MAX` |
| Cpu.GetCache | src/cpu.rs:77-89 | hit iff some line of the set holds the tag; on a hit, the first such line's word at the offset, and only that line's `last_used` becomes `time`; on a miss nothing changes |
| Cpu.Block | src/cpu.rs:96-98 | the fill copies `block_size/8` words, word `i` being `ram[start + i]` |
| Cpu.SetCache | src/cpu.rs:91-141 | only the policy's victim line changes, to the address's tag, `last_used = write_time = time` and the copied block; RAM and counters are unchanged; the result is `ram[address]` |
| Cpu.Load | src/cpu.rs:143-157 | the clock grows by 1; exactly one of read hits/misses grows by 1, hits iff the set holds the tag; on a hit, the first matching line's word and only its `last_used` changes; on a miss, `ram[address]` and only the victim is refilled; RAM and write counters unchanged |
| Cpu.StoreProbe | src/cpu.rs:161-168 | the first half of `store`: the clock grows by 1, the word is written to RAM, one write counter grows (hits iff the set holds the tag), and on a hit only the first matching line's `last_used` becomes the new time, else the lines are unchanged |
| Cpu.Store | src/cpu.rs:159-170 | the clock grows by 1; exactly one of write hits/misses grows by 1; `ram[address]` becomes the value and no other cell changes; read counters unchanged; on both a hit and a miss the victim is refilled from the updated RAM, chosen after the hit line's `last_used` is refreshed |
| CpuProperties.TwoWayGeometry | src/cpu.rs:62-82 | a 16-byte cache of 8-byte blocks, 2-way, puts address 0 at tag 0, set 0, offset 0, with one word per block |
| Replacement.LruScan | src/cpu.rs:111-120 | the loop returns its starting line when no line beats the starting time, and otherwise the first line with the largest `last_used` |
| Replacement.FifoScan | src/cpu.rs:125-134 | the loop returns its starting line when no line is below the starting time, and otherwise the first line with the smallest `write_time` |
| Replacement.Victim | src/cpu.rs:101-136 | Random picks line `set*assoc + pick`; "LRU" picks the first line of the set with maximal `last_used` when one is positive, else line 0; FIFO picks the first line with minimal `write_time` when one is below `u64::MAX`, else line 0 |
| Replacement.LruVictimIsMostRecent | src/cpu.rs:109-121 | when some `last_used` in the set is positive, the "LRU" victim is a given line iff that line is the first most recently used one |
| Replacement.FifoVictimIsOldest | src/cpu.rs:123-135 | when some `write_time` in the set is below `u64::MAX`, the FIFO victim is a given line iff that line is the first one written longest ago |
| CpuProperties.NewInv | src/cpu.rs:47-59 | a new emulator satisfies the invariant: counters add up to the clock, shapes are right, lines are timed |
| CpuProperties.LoadInv | src/cpu.rs:143-157 | `load` keeps the invariant and the RAM length |
| CpuProperties.StoreInv | src/cpu.rs:159-170 | `store` keeps the invariant and the RAM length |
| CpuProperties.RunInv | src/cpu.rs:143-170 | any sequence of loads and stores keeps the invariant |
| CpuProperties.FreshRunInv | src/cpu.rs:43-170 | after any run from `new`, the four counters add up to the number of accesses, and the RAM and line vectors keep their sizes |
| CpuProperties.VictimInSet | src/cpu.rs:101-136 | in a reachable state whose clock fits in a `u64`, every policy's victim lies in the address's set |
| CpuProperties.FreshFirstLoadHitsIffTagOne | src/cpu.rs:48-56 | the first load on a new emulator counts a hit exactly when the address's tag is 1, the empty-line tag |
| CpuProperties.LoadAgainHits | src/cpu.rs:143-157 | a second load of the same address always hits and leaves RAM alone; after a hit both loads agree, after a miss the second yields the word at the offset of the block copied from `address - address % block_size` |
| CpuProperties.StoreAllocates | src/cpu.rs:159-170 | after a store, some line of the address's set holds its tag, is stamped with the new time, and holds the block copied from the updated RAM |
| CpuProperties.StoreThenLoadMisaligned | src/cpu.rs:96-98 | on any fresh emulator (as `new` builds it) with 16-byte blocks, one line and 16 words of RAM, storing a non-zero word at 5 and loading 5 hits and yields 0.0 |
| CpuProperties.StoreHitLeavesStaleLine | src/cpu.rs:159-170 | on any fresh 2-way FIFO emulator of one-word blocks in which address 0 has tag 0 in set 0, two stores to address 0 leave both lines with tag 0, and the next load yields the first stored word |

## Left out

- `src/main.rs`: command-line parsing and printing; no cache logic.
- `src/algorithms.rs`: workload generators that only issue loads and stores.
  They use a thread RNG and floating-point arithmetic. `Run` over a sequence
  of `Access` values stands in for any such workload.
- `analysis.py`: runs the binary and scrapes its output.
- `src/test.rs`: its tests call `print_cache`, `print_ram` and `parts` from
  outside the emulator, and `cpu.rs` exposes none of these. Its value
  assertions rely on write-through consistency, which the code does not give
  (see `StoreThenLoadMisaligned`).
- The random number generator of the Random policy: the draw is the `pick`
  parameter, any value below `associativity`. `Load`, `Store` and `SetCache`
  take a `pick` under every policy. Since `associativity >= 1`, the
  requirement `pick < associativity` excludes no call the code accepts.
- Floating point: words are the 64-bit patterns of `f64` values. The emulator
  only copies words and never computes with them.
- `u64` and `usize` overflow: the clock, the counters and addresses are
  unbounded naturals. `u64::MAX` appears only as the constant `U64Max`, where
  the code uses it. The lemmas that need the clock to fit in a `u64` say so
  (`time < U64Max`).
- Out-of-range addresses (`address >= ram_size`): a `store`, and a `load`
  that misses, panic on them when they index the RAM. A `load` that hits
  does not touch the RAM. It returns the cached word instead, and an empty
  line's tag 1 can be the tag of an out-of-range address. For example, with
  a 512-byte cache of 64-byte blocks, associativity 1 and 64 words of RAM,
  `load(64)` has tag 1 and hits line 0, returning 0.0. The model excludes
  both cases: every operation requires `address < ram_size`.
- Geometry validation, constructor errors, `reset_counters` and `reset_cache`:
  the code has none of them. `new` panics only when `block_size` is 0, since
  it divides by it (src/cpu.rs:55). It accepts every other size. The
  geometry conditions listed above are preconditions here, not error results.
- The `Debug` derivations and the public size fields: they are only printed.

=== FILE: arith.dfy ===
/** Integer division facts used by the decoder. */
module Arith {

  lemma DivMod(a: nat, d: nat)
    requires d > 0
    ensures a == (a / d) * d + a % d && a % d < d
  {
  }

  lemma DivModUnique(a: int, d: int, q: int, r: int)
    requires d > 0 && 0 <= r < d && a == q * d + r
    ensures a / d == q && a % d == r
  {
    var q' := a / d;
    var r' := a % d;
    assert a == q' * d + r';
    assert (q - q') * d == r' - r;
    if q > q' {
      MulLe(1, q - q', d);
    } else if q < q' {
      MulLe(1, q' - q, d);
    }
  }

  lemma MulLe(x: nat, y: nat, k: nat)
    requires x <= y
    ensures x * k <= y * k
  {
  }

  lemma MulMod(q: nat, d: nat)
    requires d > 0
    ensures (q * d) % d == 0
  {
    DivModUnique(q * d, d, q, 0);
  }

  lemma DivExact(n: nat, d: nat)
    requires d > 0 && n % d == 0
    ensures (n / d) * d == n
  {
    DivMod(n, d);
  }

  lemma DivAtLeastOne(n: nat, d: nat)
    requires d > 0 && n >= d
    ensures n / d >= 1
  {
    DivMod(n, d);
  }

  /** Dividing by `b` then by `c` is dividing by `c` then by `b`. */
  lemma DivDivSwap(a: nat, b: nat, c: nat)
    requires b > 0 && c > 0
    ensures a / b / c == a / c / b
  {
    DivDiv(a, b, c);
    DivDiv(a, c, b);
    assert b * c == c * b;
  }

  lemma DivDiv(a: nat, b: nat, c: nat)
    requires b > 0 && c > 0
    ensures a / b / c == a / (b * c)
  {
    var q := a / b;
    var r := a % b;
    DivMod(a, b);
    DivMod(q, c);
    var s := q % c;
    assert a == (q / c) * (b * c) + (s * b + r) by {
      assert q * b == (q / c) * c * b + s * b;
    }
    MulLe(s, c - 1, b);
    assert s * b + r < b * c by {
      assert (c - 1) * b == c * b - b;
    }
    DivModUnique(a, b * c, q / c, s * b + r);
  }

  /** An aligned start below an aligned bound leaves a whole block of room. */
  lemma AlignedBelow(a: nat, n: nat, b: nat)
    requires b > 0 && a % b == 0 && n % b == 0 && a < n
    ensures a + b <= n
  {
    DivMod(a, b);
    DivMod(n, b);
    if a / b >= n / b {
      MulLe(n / b, a / b, b);
    }
    MulLe(a / b + 1, n / b, b);
  }
}

=== FILE: cpu.dfy ===
/** The cache emulator `Cpu` of src/cpu.rs: a word-addressed RAM behind a
    set-associative cache, with hit/miss counters and an access clock.
    Every operation is a pure function from the old state to the new. */
module Cpu {

  import opened Decoder
  import opened Replacement

  datatype Option<T> = None | Some(value: T)

  /** The emulator state. `ram[a]` is the word at address `a`; `cache` holds
      `Lines(geo)` lines, set `s` being lines
      `[s * associativity, (s + 1) * associativity)`. */
  datatype Cpu = Cpu(
    geo: Geometry,
    replacement: Policy,
    readHits: nat,
    readMisses: nat,
    writeHits: nat,
    writeMisses: nat,
    time: nat,
    ram: seq<Word>,
    cache: seq<CacheLine>)

  /** The shape every operation relies on: a valid geometry, a RAM of whole
      blocks, the right number of lines, and every line one block long. */
  ghost predicate WellFormed(c: Cpu)
  {
    && ValidRam(c.geo, |c.ram|)
    && |c.cache| == Lines(c.geo)
    && forall j | 0 <= j < |c.cache| :: |c.cache[j].data| == Words(c.geo)
  }

  /** The first line of the set that `address` maps to. */
  function SetStart(g: Geometry, address: nat): (lo: nat)
    requires Valid(g)
    ensures lo + g.associativity <= Lines(g)
    ensures lo == Decode(g, address).index * g.associativity
  {
    var index := Decode(g, address).index;
    SetInRange(g, index);
    index * g.associativity
  }

  /** Some line of `[lo, hi)` holds `tag`. */
  ghost predicate TagInSet(lines: seq<CacheLine>, lo: nat, hi: nat, tag: nat)
    requires hi <= |lines|
  {
    exists j | lo <= j < hi :: lines[j].tag == tag
  }

  /** `k` is the first line of `[lo, hi)` that holds `tag`. */
  ghost predicate FirstWithTag(lines: seq<CacheLine>, lo: nat, hi: nat, tag: nat, k: nat)
    requires hi <= |lines|
  {
    && lo <= k < hi
    && lines[k].tag == tag
    && forall j | lo <= j < k :: lines[j].tag != tag
  }

  /** The first line holding a tag is unique. */
  lemma FirstWithTagUnique(lines: seq<CacheLine>, lo: nat, hi: nat, tag: nat, k0: nat)
    requires hi <= |lines| && FirstWithTag(lines, lo, hi, tag, k0)
    ensures forall k: nat | FirstWithTag(lines, lo, hi, tag, k) :: k == k0
  {
    forall k: nat | FirstWithTag(lines, lo, hi, tag, k)
      ensures k == k0
    {
      if k < k0 {
        assert false;
      } else if k0 < k {
        assert false;
      }
    }
  }

  /** `after` is `before` with line `v` replaced by `line` and nothing else
      changed. */
  ghost predicate Replaced(before: seq<CacheLine>, after: seq<CacheLine>, v: nat, line: CacheLine)
  {
    && |after| == |before|
    && v < |before|
    && after[v] == line
    && forall j | 0 <= j < |before| && j != v :: after[j] == before[j]
  }

  /** The lookup loop of `get_cache`: the first line of `[k, hi)` holding
      `tag`, if any. */
  function FindTag(lines: seq<CacheLine>, k: nat, hi: nat, tag: nat): (r: Option<nat>)
    requires k <= hi <= |lines|
    ensures r.Some? <==> TagInSet(lines, k, hi, tag)
    ensures r.Some? ==> FirstWithTag(lines, k, hi, tag, r.value)
    decreases hi - k
  {
    if k == hi then None
    else if lines[k].tag == tag then Some(k)
    else FindTag(lines, k + 1, hi, tag)
  }

  /** The result of `get_cache`: the cached word on a hit, and the new state
      (on a hit the found line's `lastUsed` is refreshed). */
  datatype Probe = Probe(hit: Option<Word>, cpu: Cpu)

  /** The result of an operation that yields a word. */
  datatype Outcome = Outcome(value: Word, cpu: Cpu)

  /** Zeroed RAM, zeroed counters and clock, and every line empty: tag 1,
      write time 0, last use `U64Max` and zeroed data. */
  ghost predicate Fresh(c: Cpu)
  {
    && c.readHits == c.readMisses == c.writeHits == c.writeMisses == c.time == 0
    && (forall a | 0 <= a < |c.ram| :: c.ram[a] == Zero)
    && forall j | 0 <= j < |c.cache| ::
         && c.cache[j].tag == 1
         && c.cache[j].writeTime == 0
         && c.cache[j].lastUsed == U64Max
         && forall i | 0 <= i < |c.cache[j].data| :: c.cache[j].data[i] == Zero
  }

  /** `new`: a fresh emulator of the given geometry. Nothing is checked. */
  function New(g: Geometry, replacement: Policy, ramSize: nat): (c: Cpu)
    requires ValidRam(g, ramSize)
    ensures WellFormed(c) && Fresh(c)
    ensures c.geo == g && c.replacement == replacement && |c.ram| == ramSize
  {
    var empty := CacheLine(1, 0, U64Max, seq(Words(g), _ => Zero));
    Cpu(g, replacement, 0, 0, 0, 0, 0, seq(ramSize, _ => Zero), seq(Lines(g), _ => empty))
  }

  /** `get_cache`: scans the address's set for its tag. On a hit it yields the
      first matching line's word at the address's offset and stamps that line
      (only) with the current time; on a miss nothing changes. */
  function GetCache(c: Cpu, address: nat): (p: Probe)
    requires WellFormed(c)
    ensures var lo := SetStart(c.geo, address);
            var parts := Decode(c.geo, address);
            && (p.hit.Some? <==> TagInSet(c.cache, lo, lo + c.geo.associativity, parts.tag))
            && (forall k: nat | FirstWithTag(c.cache, lo, lo + c.geo.associativity, parts.tag, k) ::
                  && p.hit == Some(c.cache[k].data[parts.offset])
                  && p.cpu == c.(cache := c.cache[k := c.cache[k].(lastUsed := c.time)]))
            && (p.hit.None? ==> p.cpu == c)
  {
    var parts := Decode(c.geo, address);
    var lo := SetStart(c.geo, address);
    match FindTag(c.cache, lo, lo + c.geo.associativity, parts.tag)
    case None => Probe(None, c)
    case Some(k) =>
      FirstWithTagUnique(c.cache, lo, lo + c.geo.associativity, parts.tag, k);
      var line := c.cache[k];
      Probe(Some(line.data[parts.offset]), c.(cache := c.cache[k := line.(lastUsed := c.time)]))
  }

  /** The words copied into a line on a fill: `Words` words of RAM from
      `BlockStart`. */
  function Block(g: Geometry, ram: seq<Word>, address: nat): (b: seq<Word>)
    requires ValidRam(g, |ram|) && address < |ram|
    ensures |b| == Words(g) && BlockStart(g, address) + |b| <= |ram|
    ensures forall i | 0 <= i < |b| :: b[i] == ram[BlockStart(g, address) + i]
  {
    var a := BlockStart(g, address);
    var w := Words(g);
    BlockInRam(g, |ram|, address);
    ram[a .. a + w]
  }

  /** The line a fill of `address` writes at the current time. */
  function Filled(c: Cpu, address: nat): CacheLine
    requires WellFormed(c) && address < |c.ram|
  {
    CacheLine(Decode(c.geo, address).tag, c.time, c.time, Block(c.geo, c.ram, address))
  }

  /** `set_cache`: overwrites the policy's victim line with the address's
      block, tag and the current time, and yields the RAM word at the address.
      Only that line changes. `pick` is the random draw. */
  function SetCache(c: Cpu, address: nat, pick: nat): (o: Outcome)
    requires WellFormed(c) && address < |c.ram| && pick < c.geo.associativity
    ensures WellFormed(o.cpu)
    ensures o.value == c.ram[address]
    ensures o.cpu == c.(cache := o.cpu.cache)
    ensures Replaced(c.cache, o.cpu.cache,
                     Victim(c.replacement, c.cache, SetStart(c.geo, address), c.geo.associativity, pick),
                     Filled(c, address))
  {
    var lo := SetStart(c.geo, address);
    var v := Victim(c.replacement, c.cache, lo, c.geo.associativity, pick);
    Outcome(c.ram[address], c.(cache := c.cache[v := Filled(c, address)]))
  }

  /** `load`: ticks the clock, then serves the word from the cache on a hit
      (a read hit) or fills a line and serves the RAM word on a miss (a read
      miss). RAM and the write counters never change. */
  function Load(c: Cpu, address: nat, pick: nat): (o: Outcome)
    requires WellFormed(c) && address < |c.ram| && pick < c.geo.associativity
    ensures WellFormed(o.cpu)
    ensures o.cpu.time == c.time + 1
    ensures o.cpu.geo == c.geo && o.cpu.replacement == c.replacement
    ensures o.cpu.ram == c.ram
    ensures o.cpu.writeHits == c.writeHits && o.cpu.writeMisses == c.writeMisses
    ensures var lo := SetStart(c.geo, address);
            var parts := Decode(c.geo, address);
            if TagInSet(c.cache, lo, lo + c.geo.associativity, parts.tag) then
              && o.cpu.readHits == c.readHits + 1
              && o.cpu.readMisses == c.readMisses
              && forall k: nat | FirstWithTag(c.cache, lo, lo + c.geo.associativity, parts.tag, k) ::
                   && o.value == c.cache[k].data[parts.offset]
                   && o.cpu.cache == c.cache[k := c.cache[k].(lastUsed := c.time + 1)]
            else
              && o.cpu.readHits == c.readHits
              && o.cpu.readMisses == c.readMisses + 1
              && o.value == c.ram[address]
              && Replaced(c.cache, o.cpu.cache,
                          Victim(c.replacement, c.cache, lo, c.geo.associativity, pick),
                          CacheLine(parts.tag, c.time + 1, c.time + 1, Block(c.geo, c.ram, address)))
  {
    var ticked := c.(time := c.time + 1);
    var p := GetCache(ticked, address);
    match p.hit
    case Some(w) => Outcome(w, p.cpu.(readHits := p.cpu.readHits + 1))
    case None => SetCache(p.cpu.(readMisses := p.cpu.readMisses + 1), address, pick)
  }

  /** `store`: ticks the clock, counts a write hit or miss by probing the
      cache (which refreshes a hit line's `lastUsed`), writes the word to RAM,
      then fills a line from the updated RAM whether or not the probe hit. */
  function Store(c: Cpu, address: nat, value: Word, pick: nat): (d: Cpu)
    requires WellFormed(c) && address < |c.ram| && pick < c.geo.associativity
    ensures WellFormed(d)
    ensures d.time == c.time + 1
    ensures d.geo == c.geo && d.replacement == c.replacement
    ensures |d.ram| == |c.ram| && d.ram[address] == value
    ensures forall a | 0 <= a < |c.ram| && a != address :: d.ram[a] == c.ram[a]
    ensures d.readHits == c.readHits && d.readMisses == c.readMisses
    ensures var lo := SetStart(c.geo, address);
            var parts := Decode(c.geo, address);
            var fill := CacheLine(parts.tag, c.time + 1, c.time + 1, Block(c.geo, d.ram, address));
            if TagInSet(c.cache, lo, lo + c.geo.associativity, parts.tag) then
              && d.writeHits == c.writeHits + 1
              && d.writeMisses == c.writeMisses
              && forall k: nat | FirstWithTag(c.cache, lo, lo + c.geo.associativity, parts.tag, k) ::
                   var probed := c.cache[k := c.cache[k].(lastUsed := c.time + 1)];
                   Replaced(probed, d.cache,
                            Victim(c.replacement, probed, lo, c.geo.associativity, pick), fill)
            else
              && d.writeHits == c.writeHits
              && d.writeMisses == c.writeMisses + 1
              && Replaced(c.cache, d.cache,
                          Victim(c.replacement, c.cache, lo, c.geo.associativity, pick), fill)
  {
    SetCache(StoreProbe(c, address, value), address, pick).cpu
  }

  /** The first half of `store`: tick the clock, probe the set (refreshing
      `lastUsed` on a hit), count the outcome and write the word to RAM.
      `Store` then refills a line from this state. */
  function StoreProbe(c: Cpu, address: nat, value: Word): (w: Cpu)
    requires WellFormed(c) && address < |c.ram|
    ensures WellFormed(w) && w.geo == c.geo && w.replacement == c.replacement
    ensures w.time == c.time + 1 && w.ram == c.ram[address := value]
    ensures w.readHits == c.readHits && w.readMisses == c.readMisses
    ensures var lo := SetStart(c.geo, address);
            var tag := Decode(c.geo, address).tag;
            if TagInSet(c.cache, lo, lo + c.geo.associativity, tag) then
              && w.writeHits == c.writeHits + 1
              && w.writeMisses == c.writeMisses
              && forall k: nat | FirstWithTag(c.cache, lo, lo + c.geo.associativity, tag, k) ::
                   w.cache == c.cache[k := c.cache[k].(lastUsed := c.time + 1)]
            else
              && w.writeHits == c.writeHits
              && w.writeMisses == c.writeMisses + 1
              && w.cache == c.cache
  {
    var ticked := c.(time := c.time + 1);
    var p := GetCache(ticked, address);
    var counted := match p.hit
      case Some(_) => p.cpu.(writeHits := p.cpu.writeHits + 1)
      case None => p.cpu.(writeMisses := p.cpu.writeMisses + 1);
    counted.(ram := counted.ram[address := value])
  }
}

=== FILE: decoder.dfy ===
/** Cache geometry and the decomposition of a word address into
    (tag, set index, word offset), as done by `Cpu::parts` in src/cpu.rs. */
module Decoder {

  import Arith

  /** Bytes per word: every word is one 64-bit floating-point value. */
  const WordBytes: nat := 8

  /** The configuration a `Cpu` is built with. Sizes are in bytes, except that
      the RAM is counted in words (it is a vector of `ram_size` words). */
  datatype Geometry = Geometry(cacheSize: nat, blockSize: nat, associativity: nat)

  /** The geometry the model requires; the emulator checks none of it.
      Without `blockSize >= 8`, `associativity >= 1` and
      `Lines >= associativity` the emulator divides by zero; the model adds
      the other two conditions. */
  predicate Valid(g: Geometry)
  {
    && g.blockSize >= WordBytes
    && g.blockSize % WordBytes == 0
    && g.associativity >= 1
    && (g.cacheSize / g.blockSize) % g.associativity == 0
    && g.cacheSize / g.blockSize >= g.associativity
  }

  /** A RAM of a whole number of blocks. With it every copied block lies
      inside the RAM; the emulator also runs on some RAM sizes that break
      it. */
  predicate ValidRam(g: Geometry, ramSize: nat)
  {
    Valid(g) && ramSize % g.blockSize == 0
  }

  /** Words per block (the length of every cache line's data). */
  function Words(g: Geometry): (w: nat)
    requires Valid(g)
    ensures w >= 1 && w * WordBytes == g.blockSize
  {
    g.blockSize / WordBytes
  }

  /** Number of cache lines. */
  function Lines(g: Geometry): (n: nat)
    requires Valid(g)
    ensures n >= g.associativity >= 1
  {
    g.cacheSize / g.blockSize
  }

  /** Number of associative sets. */
  function NSets(g: Geometry): (n: nat)
    requires Valid(g)
    ensures n >= 1
  {
    Arith.DivAtLeastOne(Lines(g), g.associativity);
    Lines(g) / g.associativity
  }

  /** The result of decoding an address. */
  datatype Parts = Parts(tag: nat, index: nat, offset: nat)

  /** Decodes an address. The tag divides by the number of sets first and by
      the words per block second, as the source does; `DecodeRoundTrip` shows
      this is the block number divided by the number of sets. */
  function Decode(g: Geometry, address: nat): (p: Parts)
    requires Valid(g)
    ensures p.offset < Words(g)
    ensures p.index < NSets(g)
  {
    Parts(TagOf(g, address), IndexOf(g, address), OffsetOf(g, address))
  }

  function OffsetOf(g: Geometry, address: nat): (offset: nat)
    requires Valid(g)
    ensures offset < Words(g)
  {
    address % Words(g)
  }

  function IndexOf(g: Geometry, address: nat): (index: nat)
    requires Valid(g)
    ensures index < NSets(g)
  {
    var ramLine: nat := address / Words(g);
    ramLine % NSets(g)
  }

  function TagOf(g: Geometry, address: nat): nat
    requires Valid(g)
  {
    var perSet: nat := address / NSets(g);
    perSet / Words(g)
  }

  /** Decoding then composing gives the address back. */
  lemma DecodeRoundTrip(g: Geometry, address: nat)
    requires Valid(g)
    ensures Compose(g, Decode(g, address)) == address
  {
    var words := Words(g);
    var nSets := NSets(g);
    Arith.DivDivSwap(address, nSets, words);
    Arith.DivMod(address, words);
    Arith.DivMod(address / words, nSets);
  }

  /** The inverse of `Decode`: the address of word `offset` of the block with
      the given tag in the given set. */
  function Compose(g: Geometry, p: Parts): nat
    requires Valid(g)
  {
    (p.tag * NSets(g) + p.index) * Words(g) + p.offset
  }

  /** Decoding is injective on in-range parts: composing then decoding gives
      the parts back. Together with `Decode`'s contract (decoding then
      composing gives the address back) this makes the two a bijection. */
  lemma DecodeCompose(g: Geometry, p: Parts)
    requires Valid(g)
    requires p.index < NSets(g) && p.offset < Words(g)
    ensures Decode(g, Compose(g, p)) == p
  {
    var address := Compose(g, p);
    var q := Decode(g, address);
    DecodeRoundTrip(g, address);
    var w := Words(g);
    var n := NSets(g);
    Arith.DivModUnique(address, w, p.tag * n + p.index, p.offset);
    Arith.DivModUnique(q.tag * n + q.index, n, q.tag, q.index);
    Arith.DivModUnique(p.tag * n + p.index, n, p.tag, p.index);
    Arith.DivModUnique(address, w, q.tag * n + q.index, q.offset);
  }

  /** The first word of the block holding `address` as the source computes
      it: the address rounded down to a multiple of the block size in BYTES,
      although addresses count words. */
  function BlockStart(g: Geometry, address: nat): (a: nat)
    requires Valid(g)
    ensures a <= address
    ensures a % g.blockSize == 0
    ensures address - a == address % g.blockSize
  {
    Arith.DivMod(address, g.blockSize);
    Arith.MulMod(address / g.blockSize, g.blockSize);
    address - address % g.blockSize
  }

  /** The block copied on a fill lies inside a RAM that holds a whole number
      of blocks, so the slice `ram[a .. a + words]` is in range. */
  lemma BlockInRam(g: Geometry, ramSize: nat, address: nat)
    requires ValidRam(g, ramSize) && address < ramSize
    ensures BlockStart(g, address) + Words(g) <= ramSize
  {
    var a := BlockStart(g, address);
    Arith.AlignedBelow(a, ramSize, g.blockSize);
  }

  /** A set's lines are `[index * associativity, (index + 1) * associativity)`
      and that range lies inside the line vector. */
  lemma SetInRange(g: Geometry, index: nat)
    requires Valid(g) && index < NSets(g)
    ensures (index + 1) * g.associativity <= Lines(g)
    ensures index * g.associativity + g.associativity <= Lines(g)
  {
    Arith.DivExact(Lines(g), g.associativity);
    Arith.MulLe(index + 1, NSets(g), g.associativity);
  }

  /** Decodings of a 512-byte cache of 64-byte blocks, fully associative,
      direct-mapped and 2-way. */
  lemma DecodeExamples()
    ensures Decode(Geometry(512, 64, 8), 0) == Parts(0, 0, 0)
    ensures Decode(Geometry(512, 64, 8), 8) == Parts(1, 0, 0)
    ensures Decode(Geometry(512, 64, 8), 19) == Parts(2, 0, 3)
    ensures Decode(Geometry(512, 64, 1), 8) == Parts(0, 1, 0)
    ensures Decode(Geometry(512, 64, 1), 64) == Parts(1, 0, 0)
    ensures Decode(Geometry(512, 64, 1), 75) == Parts(1, 1, 3)
    ensures Decode(Geometry(512, 64, 2), 17) == Parts(0, 2, 1)
    ensures Decode(Geometry(512, 64, 2), 100) == Parts(3, 0, 4)
  {
  }
}

=== FILE: properties.dfy ===
/** Properties of the emulator across operations: the invariants `new`
    establishes and every `load`/`store` keeps, where victims land, what a
    second access sees, and concrete runs where the code departs from the
    write-through design it describes. */
module CpuProperties {

  import opened Decoder
  import opened Replacement
  import opened Cpu

  /** Every line has been used at some positive time (or is empty, with
      `U64Max`) and was written no later than now. */
  ghost predicate LinesTimed(lines: seq<CacheLine>, time: nat)
  {
    forall j | 0 <= j < |lines| :: lines[j].lastUsed > 0 && lines[j].writeTime <= time
  }

  /** What holds of every reachable emulator state. */
  ghost predicate Inv(c: Cpu)
  {
    && WellFormed(c)
    && c.readHits + c.readMisses + c.writeHits + c.writeMisses == c.time
    && LinesTimed(c.cache, c.time)
  }

  lemma NewInv(g: Geometry, replacement: Policy, ramSize: nat)
    requires ValidRam(g, ramSize)
    ensures var c := New(g, replacement, ramSize);
            Inv(c) && |c.ram| == ramSize && |c.cache| == Lines(g)
  {
  }

  /** Stamping a line with a positive time keeps the lines timed. */
  lemma TimedAfterTouch(lines: seq<CacheLine>, time: nat, k: nat, t: nat)
    requires LinesTimed(lines, time) && k < |lines| && t > 0
    ensures LinesTimed(lines[k := lines[k].(lastUsed := t)], time)
  {
  }

  /** `load` keeps the invariant: one counter and the clock each grow by 1. */
  lemma LoadInv(c: Cpu, address: nat, pick: nat)
    requires Inv(c) && address < |c.ram| && pick < c.geo.associativity
    ensures Inv(Load(c, address, pick).cpu)
    ensures |Load(c, address, pick).cpu.ram| == |c.ram|
  {

  }

  /** `store` keeps the invariant. */
  lemma StoreInv(c: Cpu, address: nat, value: Word, pick: nat)
    requires Inv(c) && address < |c.ram| && pick < c.geo.associativity
    ensures Inv(Store(c, address, value, pick))
    ensures |Store(c, address, value, pick).ram| == |c.ram|
  {

  }

  /** One call a workload makes; `pick` is the random draw for that call. */
  datatype Access = Read(address: nat, pick: nat) | Write(address: nat, value: Word, pick: nat)

  /** The accesses can all be issued to an emulator of this geometry and RAM. */
  predicate Fits(g: Geometry, ramSize: nat, trace: seq<Access>)
  {
    forall i | 0 <= i < |trace| :: trace[i].address < ramSize && trace[i].pick < g.associativity
  }

  /** Issues one access. */
  function Step(c: Cpu, access: Access): (d: Cpu)
    requires WellFormed(c) && access.address < |c.ram| && access.pick < c.geo.associativity
    ensures WellFormed(d) && d.geo == c.geo && |d.ram| == |c.ram|
    ensures d.time == c.time + 1
  {
    match access
    case Read(a, pick) => Load(c, a, pick).cpu
    case Write(a, v, pick) => Store(c, a, v, pick)
  }

  lemma StepInv(c: Cpu, access: Access)
    requires Inv(c) && access.address < |c.ram| && access.pick < c.geo.associativity
    ensures Inv(Step(c, access))
  {
    match access
    case Read(a, pick) => LoadInv(c, a, pick);
    case Write(a, v, pick) => StoreInv(c, a, v, pick);
  }

  /** Runs a sequence of accesses, in order. */
  function Run(c: Cpu, trace: seq<Access>): (d: Cpu)
    requires WellFormed(c) && Fits(c.geo, |c.ram|, trace)
    ensures WellFormed(d) && d.geo == c.geo && |d.ram| == |c.ram|
    ensures d.time == c.time + |trace|
    decreases |trace|
  {
    if trace == [] then c
    else
      var next := Step(c, trace[0]);
      FitsTail(c.geo, |c.ram|, trace);
      Run(next, trace[1..])
  }

  lemma FitsTail(g: Geometry, ramSize: nat, trace: seq<Access>)
    requires Fits(g, ramSize, trace) && trace != []
    ensures Fits(g, ramSize, trace[1..])
  {
    forall i | 0 <= i < |trace| - 1
      ensures trace[1..][i].address < ramSize && trace[1..][i].pick < g.associativity
    {
      assert trace[1..][i] == trace[i + 1];
    }
  }

  /** Every run keeps the invariant: the four counters add up to the clock,
      and the RAM and line vectors keep their sizes. */
  lemma {:induction false} RunInv(c: Cpu, trace: seq<Access>)
    requires Inv(c) && Fits(c.geo, |c.ram|, trace)
    ensures Inv(Run(c, trace))
    decreases |trace|
  {
    if trace != [] {
      StepInv(c, trace[0]);
      FitsTail(c.geo, |c.ram|, trace);
      RunInv(Step(c, trace[0]), trace[1..]);
    }
  }

  lemma FreshRunInv(g: Geometry, replacement: Policy, ramSize: nat, trace: seq<Access>)
    requires ValidRam(g, ramSize) && Fits(g, ramSize, trace)
    ensures var d := Run(New(g, replacement, ramSize), trace);
            && Inv(d)
            && d.readHits + d.readMisses + d.writeHits + d.writeMisses == |trace|
            && |d.ram| == ramSize && |d.cache| == Lines(g)
  {
    NewInv(g, replacement, ramSize);
    RunInv(New(g, replacement, ramSize), trace);
  }

  /** While the clock fits in a `u64`, every policy's victim lies in the set:
      "LRU" because every line has a positive `lastUsed`, FIFO because every
      `writeTime` is below `U64Max`. */
  lemma VictimInSet(policy: Policy, lines: seq<CacheLine>, lo: nat, associativity: nat, pick: nat, time: nat)
    requires lo + associativity <= |lines| && pick < associativity
    requires LinesTimed(lines, time) && time < U64Max
    ensures lo <= Victim(policy, lines, lo, associativity, pick) < lo + associativity
  {

  }

  /** The empty-line tag is 1, so on a fresh emulator the first access hits
      exactly when the address's tag is 1, so a first access need not
      miss. */
  lemma FreshFirstLoadHitsIffTagOne(g: Geometry, replacement: Policy, ramSize: nat, address: nat, pick: nat)
    requires ValidRam(g, ramSize) && address < ramSize && pick < g.associativity
    ensures var o := Load(New(g, replacement, ramSize), address, pick);
            o.cpu.readHits == 1 <==> Decode(g, address).tag == 1
  {

  }

  /** A second `load` of the same address always hits. If the first hit, both
      yield the same word; if the first missed, the second yields the word at
      the address's offset in the copied block, which is `ram[address]` only
      when that block starts where the address's word-block does. */
  lemma LoadAgainHits(c: Cpu, address: nat, pick1: nat, pick2: nat)
    requires Inv(c) && c.time < U64Max
    requires address < |c.ram| && pick1 < c.geo.associativity && pick2 < c.geo.associativity
    ensures var o1 := Load(c, address, pick1);
            var o2 := Load(o1.cpu, address, pick2);
            && o2.cpu.readHits == o1.cpu.readHits + 1
            && o2.cpu.ram == c.ram
            && (o1.cpu.readHits == c.readHits + 1 ==> o2.value == o1.value)
            && (o1.cpu.readMisses == c.readMisses + 1 ==>
                  o2.value == c.ram[BlockStart(c.geo, address) + Decode(c.geo, address).offset])
  {
    var o1 := Load(c, address, pick1);
    var lo := SetStart(c.geo, address);
    var hi := lo + c.geo.associativity;
    var parts := Decode(c.geo, address);
    if TagInSet(c.cache, lo, hi, parts.tag) {
      var k := FindTag(c.cache, lo, hi, parts.tag).value;
      assert FirstWithTag(o1.cpu.cache, lo, hi, parts.tag, k);
    } else {
      var v := Victim(c.replacement, c.cache, lo, c.geo.associativity, pick1);
      VictimInSet(c.replacement, c.cache, lo, c.geo.associativity, pick1, c.time);
      assert FirstWithTag(o1.cpu.cache, lo, hi, parts.tag, v) by {
        forall j | lo <= j < v
          ensures o1.cpu.cache[j].tag != parts.tag
        {
          assert o1.cpu.cache[j] == c.cache[j];
        }
      }
    }
  }

  /** `store` always ends with a line of the address's set holding the
      address's tag, filled now from the updated RAM, whether the probe hit
      or missed. */
  lemma StoreAllocates(c: Cpu, address: nat, value: Word, pick: nat)
    requires Inv(c) && c.time < U64Max
    requires address < |c.ram| && pick < c.geo.associativity
    ensures var d := Store(c, address, value, pick);
            var lo := SetStart(c.geo, address);
            exists v | lo <= v < lo + c.geo.associativity ::
              && d.cache[v].tag == Decode(c.geo, address).tag
              && d.cache[v].writeTime == d.cache[v].lastUsed == d.time
              && d.cache[v].data == Block(c.geo, d.ram, address)
  {
    var lo := SetStart(c.geo, address);
    var w := StoreProbe(c, address, value);
    ProbeTimed(c, address, value);
    VictimInSet(c.replacement, w.cache, lo, c.geo.associativity, pick, c.time);
    var v := Victim(c.replacement, w.cache, lo, c.geo.associativity, pick);
    assert lo <= v < lo + c.geo.associativity && Store(c, address, value, pick).cache[v] == Filled(w, address);
  }

  /** Probing before a store only refreshes one `lastUsed`, so the lines stay
      timed. */
  lemma ProbeTimed(c: Cpu, address: nat, value: Word)
    requires Inv(c) && address < |c.ram|
    ensures LinesTimed(StoreProbe(c, address, value).cache, c.time)
  {
    var lo := SetStart(c.geo, address);
    var tag := Decode(c.geo, address).tag;
    if TagInSet(c.cache, lo, lo + c.geo.associativity, tag) {
      TimedAfterTouch(c.cache, c.time, FindTag(c.cache, lo, lo + c.geo.associativity, tag).value, c.time + 1);
    }
  }

  /** Blocks are aligned to the block size in bytes although addresses count
      words: with 16-byte blocks (two words) and one direct-mapped line, a
      word stored at address 5 is filled from words 0 and 1, so the next load
      hits and yields 0.0 instead of the stored word. */
  lemma StoreThenLoadMisaligned(c: Cpu, value: Word)
    requires WellFormed(c) && Fresh(c)
    requires c.geo == Geometry(16, 16, 1) && |c.ram| == 16
    requires value != Zero
    ensures var d := Store(c, 5, value, 0);
            var o := Load(d, 5, 0);
            && d.ram[5] == value
            && o.cpu.readHits == 1
            && o.value == Zero
  {

  }

  /** A 2-way FIFO emulator of one-word blocks in which address 0 has tag 0
      and falls in the set of lines 0 and 1; `TwoWayGeometry` shows that the
      geometry `Geometry(16, 8, 2)` with a 16-word RAM is one. */
  ghost predicate TwoWayFifoAtZero(c: Cpu)
  {
    && WellFormed(c)
    && c.replacement == FIFO
    && c.geo.associativity == 2
    && |c.ram| == 16
    && Words(c.geo) == 1
    && Decode(c.geo, 0) == Parts(0, 0, 0)
    && SetStart(c.geo, 0) == 0
    && BlockStart(c.geo, 0) == 0
  }

  lemma TwoWayGeometry(c: Cpu)
    requires WellFormed(c) && c.geo == Geometry(16, 8, 2) && c.replacement == FIFO && |c.ram| == 16
    ensures TwoWayFifoAtZero(c)
  {
  }

  /** A store that hits still refills a line: in a 2-way FIFO set the second
      store to address 0 fills the other line, so both lines hold tag 0, and
      the first line, still holding the old word, stays first in scan order
      and serves the next load. */
  lemma StoreHitLeavesStaleLine(c: Cpu, first: Word, second: Word)
    requires TwoWayFifoAtZero(c) && Fresh(c)
    requires first != second
    ensures var c1 := Store(c, 0, first, 0);
            var c2 := Store(c1, 0, second, 0);
            var o := Load(c2, 0, 0);
            && c2.ram[0] == second
            && c2.writeHits == 1
            && c2.cache[0].tag == c2.cache[1].tag == 0
            && o.value == first
  {

  }
}

=== FILE: replacement.dfy ===
/** Cache lines and the victim choice of `Cpu::set_cache` in src/cpu.rs:
    Random, "LRU" and FIFO, each scanning one set's range of lines. */
module Replacement {

  /** The largest `u64`: the initial `last_used` of an empty line and the
      starting minimum of the FIFO scan. */
  const U64Max: nat := 0xFFFF_FFFF_FFFF_FFFF

  /** One memory word: an `f64`, kept as its bit pattern because the cache
      only copies words and never computes with them. */
  datatype Word = Word(bits: bv64)

  /** The word `0.0`. */
  const Zero: Word := Word(0)

  datatype Policy = Random | LRU | FIFO

  /** One physical cache slot. */
  datatype CacheLine = CacheLine(tag: nat, writeTime: nat, lastUsed: nat, data: seq<Word>)

  /** `k` is the first line of `[lo, hi)` whose `lastUsed` is the largest in
      that range. */
  ghost predicate FirstMaxLastUsed(lines: seq<CacheLine>, lo: nat, hi: nat, k: nat)
    requires hi <= |lines|
  {
    && lo <= k < hi
    && (forall j | lo <= j < hi :: lines[j].lastUsed <= lines[k].lastUsed)
    && (forall j | lo <= j < k :: lines[j].lastUsed < lines[k].lastUsed)
  }

  /** `k` is the first line of `[lo, hi)` whose `writeTime` is the smallest in
      that range. */
  ghost predicate FirstMinWriteTime(lines: seq<CacheLine>, lo: nat, hi: nat, k: nat)
    requires hi <= |lines|
  {
    && lo <= k < hi
    && (forall j | lo <= j < hi :: lines[k].writeTime <= lines[j].writeTime)
    && (forall j | lo <= j < k :: lines[k].writeTime < lines[j].writeTime)
  }

  /** The "LRU" loop over lines `[k, hi)`, carrying the best time and line
      seen so far. It keeps a line only when its `lastUsed` is strictly
      larger, so it finds the FIRST line with the LARGEST `lastUsed`, and
      only when that beats the time it started from. */
  function LruScan(lines: seq<CacheLine>, k: nat, hi: nat, bestTime: nat, bestLine: nat): (v: nat)
    requires k <= hi <= |lines|
    ensures (forall j | k <= j < hi :: lines[j].lastUsed <= bestTime) ==> v == bestLine
    ensures (exists j | k <= j < hi :: lines[j].lastUsed > bestTime) ==>
              FirstMaxLastUsed(lines, k, hi, v) && lines[v].lastUsed > bestTime
    decreases hi - k
  {
    if k == hi then bestLine
    else if lines[k].lastUsed > bestTime then LruScan(lines, k + 1, hi, lines[k].lastUsed, k)
    else LruScan(lines, k + 1, hi, bestTime, bestLine)
  }

  /** The FIFO loop over lines `[k, hi)`: it keeps a line only when its
      `writeTime` is strictly smaller, so it finds the FIRST line with the
      SMALLEST `writeTime`, and only when that is below the starting time. */
  function FifoScan(lines: seq<CacheLine>, k: nat, hi: nat, bestTime: nat, bestLine: nat): (v: nat)
    requires k <= hi <= |lines|
    ensures (forall j | k <= j < hi :: lines[j].writeTime >= bestTime) ==> v == bestLine
    ensures (exists j | k <= j < hi :: lines[j].writeTime < bestTime) ==>
              FirstMinWriteTime(lines, k, hi, v) && lines[v].writeTime < bestTime
    decreases hi - k
  {
    if k == hi then bestLine
    else if lines[k].writeTime < bestTime then FifoScan(lines, k + 1, hi, lines[k].writeTime, k)
    else FifoScan(lines, k + 1, hi, bestTime, bestLine)
  }

  /** The "LRU" victim of set `[lo, hi)`: the scan starts from time 0 and
      line 0. */
  function LruVictim(lines: seq<CacheLine>, lo: nat, hi: nat): nat
    requires lo <= hi <= |lines|
  {
    LruScan(lines, lo, hi, 0, 0)
  }

  /** The FIFO victim of set `[lo, hi)`: the scan starts from `U64Max` and
      line 0. */
  function FifoVictim(lines: seq<CacheLine>, lo: nat, hi: nat): nat
    requires lo <= hi <= |lines|
  {
    FifoScan(lines, lo, hi, U64Max, 0)
  }

  /** The line `set_cache` overwrites, for a set whose lines are
      `[lo, lo + associativity)`. `pick` stands for the random draw in
      `[0, associativity)`; only the Random policy reads it. */
  function Victim(policy: Policy, lines: seq<CacheLine>, lo: nat, associativity: nat, pick: nat): (v: nat)
    requires lo + associativity <= |lines|
    requires pick < associativity
    ensures v < |lines|
    ensures policy == Random ==> lo <= v < lo + associativity && v - lo == pick
    ensures policy == LRU ==>
              if exists j | lo <= j < lo + associativity :: lines[j].lastUsed > 0
              then FirstMaxLastUsed(lines, lo, lo + associativity, v)
              else v == 0
    ensures policy == FIFO ==>
              if exists j | lo <= j < lo + associativity :: lines[j].writeTime < U64Max
              then FirstMinWriteTime(lines, lo, lo + associativity, v)
              else v == 0
  {
    match policy
    case Random => lo + pick
    case LRU => LruVictim(lines, lo, lo + associativity)
    case FIFO => FifoVictim(lines, lo, lo + associativity)
  }

  /** Only one line can be the first with the largest `lastUsed`. */
  lemma FirstMaxUnique(lines: seq<CacheLine>, lo: nat, hi: nat, k1: nat, k2: nat)
    requires hi <= |lines|
    requires FirstMaxLastUsed(lines, lo, hi, k1) && FirstMaxLastUsed(lines, lo, hi, k2)
    ensures k1 == k2
  {
    assert lines[k1].lastUsed == lines[k2].lastUsed;
    if k1 < k2 {
      assert false;
    } else if k2 < k1 {
      assert false;
    }
  }

  /** Only one line can be the first with the smallest `writeTime`. */
  lemma FirstMinUnique(lines: seq<CacheLine>, lo: nat, hi: nat, k1: nat, k2: nat)
    requires hi <= |lines|
    requires FirstMinWriteTime(lines, lo, hi, k1) && FirstMinWriteTime(lines, lo, hi, k2)
    ensures k1 == k2
  {
    assert lines[k1].writeTime == lines[k2].writeTime;
    if k1 < k2 {
      assert false;
    } else if k2 < k1 {
      assert false;
    }
  }

  /** As written, the "LRU" victim of a set with some non-zero `lastUsed` is
      exactly the first MOST recently used line: the opposite of least
      recently used. */
  lemma LruVictimIsMostRecent(lines: seq<CacheLine>, lo: nat, hi: nat, k: nat)
    requires lo <= hi <= |lines|
    requires exists j | lo <= j < hi :: lines[j].lastUsed > 0
    ensures LruVictim(lines, lo, hi) == k <==> FirstMaxLastUsed(lines, lo, hi, k)
  {
    // The scan's contract gives the forward direction; uniqueness of the
    // first maximum gives the converse.
    if FirstMaxLastUsed(lines, lo, hi, k) {
      FirstMaxUnique(lines, lo, hi, LruVictim(lines, lo, hi), k);
    }
  }

  /** The FIFO victim of a set with some `writeTime` below `U64Max` is exactly
      the first line written longest ago. */
  lemma FifoVictimIsOldest(lines: seq<CacheLine>, lo: nat, hi: nat, k: nat)
    requires lo <= hi <= |lines|
    requires exists j | lo <= j < hi :: lines[j].writeTime < U64Max
    ensures FifoVictim(lines, lo, hi) == k <==> FirstMinWriteTime(lines, lo, hi, k)
  {
    // The scan's contract gives the forward direction; uniqueness of the
    // first minimum gives the converse.
    if FirstMinWriteTime(lines, lo, hi, k) {
      FirstMinUnique(lines, lo, hi, FifoVictim(lines, lo, hi), k);
    }
  }
}
